=== FILE: README.md ===
# GenAI Data Quality Helper — a Dafny model of its core

The application is a web front end plus an analysis service for CSV files.
A signed-in user uploads a file. The service counts its rows, runs a
rule-based detector and asks a language model for corrections. It cleans up
the model's raw reply into a JSON list and keeps only the suggestions that
change something. The browser then shows an audit report.

This project models the deterministic logic of that flow:

- `Text` (`text.dfy`): the Python and JavaScript string operations the
  code relies on. These are `str.strip` with Python's whitespace set,
  `find`, `rfind`, `split(sep)[0]` and `[1]`, `count`, the decimal
  rendering of an `int`, and `String.replace` with a string pattern (first
  occurrence only).
- `Sanitiser` (`sanitiser.dfy`): the reply sanitiser of `POST /analyze`.
  It strips, cuts out a fenced block (a "```json" fence first), starts at
  the first `[`, and closes a truncated list after its last `}`.
- `Analyze` (`analyze.dfy`): the suggestion filter and the endpoint.
  - The filter is an order-preserving subsequence that keeps exactly the
    suggestions whose stripped `original` is non-empty and differs from the
    stripped `fix`. It is idempotent.
  - The endpoint is modelled as a total function with these outcomes: the
    suffix check (400), the row bounds (a 200 whose body holds only
    `error`), every collaborator failure (500), and the report.
  - `json.loads`, `pd.read_csv`, the detector and the language-model call
    are parameters.
- `Payload` (`payload.dfy`): the JSON bodies that travel to the browser.
- `Upload` (`upload.dfy`): the upload widget as a state machine.
  - Its state is the file, the in-flight flag and the banner.
  - Its events are a file choice, a click, and the settling of the
    request.
  - `Transport` is what the HTTP client makes of a response: 200 resolves
    and anything else rejects.
- `AuthForm` (`auth_form.dfy`): the sign-in / sign-up form. It has the mode
  toggle, the provider call chosen by the mode, and the error text with its
  first "Firebase:" removed.
- `App` (`app.dfy`): the application shell.
  - What is on screen follows from `loading`, `user` and `analysisData`,
    and the report is rendered from the body. Reading the rendered issue
    entries back gives the issue list.
  - Events reach only the child on screen.
  - A child that leaves the screen loses its state, because React discards
    the state of an unmounted component.
  - A render that throws blanks the page for good.
- `ResultTable` (`result_table.dfy`): the confidence tiers, the separate
  check-mark threshold, and the fallback to two sample rows. The shell does
  not mount this component, so it is modelled on its own.
- `EndToEnd` (`end_to_end.dfy`): the path from the endpoint's answer to the
  screen.
  - A row-count rejection is sent as a 200 with only an `error` key. The
    widget forwards it as a success. The report then reads
    `issues_detected.length` of it and throws, which leaves the page blank.
  - The model states this outcome rather than ruling the input out.

Three behaviours of the code that a reader might not expect:

- The mode toggle does not clear the form's error line (Auth.js:73).
- The provider prefix is removed wherever it first occurs, and the space
  after it stays (Auth.js:25).
- The widget keeps its file after a successful upload (FileUpload.js:43-48).
  The file is gone only because the report replaces the widget, so the
  widget starts empty when it is mounted again.

Also, the "```json" branch of the sanitiser can differ from "the text up to
the next ```". Python's `split('```json')` cuts first, at the next "```json".
Suppose a run of four or more backticks followed by "json" comes after the
opening fence, and no plain "```" comes before that run. Then the extracted
text ends with one or more backticks of the run. `Sanitiser.JsonFenceCutShort`
shows such a reply.

## Model

| member | source | states |
|---|---|---|
| Text.Strip | backend/main.py:69 | Removes exactly the leading and trailing Python whitespace: no whitespace is left at either end, the result is empty iff the text is all whitespace, and it is a contiguous piece of the input |
| Text.StripDropsOnlySpace | backend/main.py:69 | Every character outside the kept piece is whitespace, so the result is the input with its leading and trailing whitespace removed and nothing else |
| Text.StripIdempotent | backend/main.py:69 | Stripping twice is stripping once |
| Text.Find | backend/main.py:79 | `find`: `None` iff the pattern does not occur, otherwise the first index where it occurs |
| Text.RFind | backend/main.py:84 | `rfind` for one character: `None` iff it is absent, otherwise its last index |
| Text.SplitHead | backend/main.py:73 | `split(sep)[0]`: the longest prefix without the separator, ending where the first separator starts |
| Text.SplitSecond | backend/main.py:73 | `split(sep)[1]`: the text that starts right after the first separator, in which no separator starts, and that ends at the end of the input or where the next separator starts |
| Text.SplitSecondUnique | backend/main.py:73 | Those facts determine `split(sep)[1]`: any text that meets them is the result |
| Text.RemoveFirst | frontend/src/components/Auth.js:25 | `String.replace` with a string pattern: unchanged when the pattern is absent, otherwise the input with the pattern cut out at its first occurrence |
| Text.DecimalRoundTrip | backend/main.py:58 | The decimal text of a count reads back as that count |
| Sanitiser.ExtractFenced | backend/main.py:72-75 | Text without a fence is left alone; with a fence, the result holds no fence and has no whitespace at either end |
| Sanitiser.JsonFenceSegment | backend/main.py:72-73 | With a "```json" fence and no "````json" after it, the result is the stripped text between the first "```json" and the next "```" (or the end) |
| Sanitiser.JsonFenceCutShort | backend/main.py:73 | "```json[1]`````json" yields "[1]``": a later "````json" cuts the closing fence short |
| Sanitiser.PlainFenceSegment | backend/main.py:74-75 | Without "```json", the result is the stripped text between the first and second "```" |
| Sanitiser.FromFirstBracket | backend/main.py:78-79 | Text without `[` is unchanged; otherwise the result is the suffix starting at the first `[` |
| Sanitiser.AutoClose | backend/main.py:83-89 | Fires only when `[` outnumbers `]`; then it gives the prefix through the last `}` followed by "\n]", or "[]" when there is no `}` |
| Sanitiser.AutoCloseIdempotent | backend/main.py:83-89 | A second pass of the auto-closer changes nothing |
| Sanitiser.Bracketed | backend/main.py:77-89 | Text without `[` passes unchanged; text with one comes out starting with `[`; text with no fence and no whitespace at its ends keeps both properties |
| Sanitiser.Sanitise | backend/main.py:69-89 | After fence extraction, a `[` means the sanitised text starts with `[`, and no `[` means it is the extracted text as it is; what reaches `json.loads` never holds a fence and has no whitespace at either end |
| Sanitiser.SanitiseIdempotent | backend/main.py:69-89 | Sanitising the sanitised text changes nothing |
| Analyze.Filter | backend/main.py:96-100 | The kept suggestions form a subsequence of the input, every kept one changes something, and each one that changes something is kept as often as it occurs |
| Analyze.FilterIdempotent | backend/main.py:96-100 | Filtering twice is filtering once |
| Analyze.FilterByUnique | backend/main.py:96-100 | The filter's contract determines its result: an order-preserving selection holding each passing element exactly as often as the input, and nothing else, is the filtered list |
| Analyze.SubsequenceCounts | backend/main.py:96-100 | An order-preserving selection holds each element at most as often as the list it comes from |
| Analyze.KeptAreFixed | backend/main.py:96-100 | A list whose every element passes the test comes through the filter whole |
| Analyze.Objects | backend/main.py:96-98 | The comprehension gets through the list iff every element is an object, and then it sees them all in order |
| Analyze.KeptSurvive | backend/main.py:96-100 | Every object that changes something appears in the filtered list |
| Analyze.SuggestionsOf | backend/main.py:92-105 | A parse error, a non-list value or a list with a non-object gives the empty list; otherwise the result is an order-preserving selection of the objects that holds each suggestion that changes something exactly as often as the list does, and nothing else |
| Analyze.ExtractSuggestions | backend/main.py:67-105 | Never an error: none when the sanitised text does not parse to a list or the list holds a non-object; otherwise the order-preserving selection of the objects that holds each one that changes something exactly as often as the list does |
| Analyze.RowLimitMessageNamesCount | backend/main.py:58 | The rejection text names the row count in decimal right after "File size is " |
| Analyze.AnalyzeCsv | backend/main.py:45-117 | A name not ending in ".csv" gets 400 with the fixed detail before anything is read; a failure of reading, of the detector or of the language-model call after that is a 500 "Error processing file: " followed by that failure's message; a row count outside [20, 500] gets a 200 carrying only the error text; otherwise a report with the upload's name, the "email" entry of the caller's dict ("Unknown" without one), the row count, the detector's issues and the filtered suggestions |
| Analyze.ReportUserIsEmailClaim | backend/auth.py:37-41 | Behind `get_current_user`, whose dict always has an "email" key, the report's `user` is the token's email claim, or `null` when the token has none, so the "Unknown" default is never taken |
| Upload.HandleFileChange | frontend/src/components/FileUpload.js:11-20 | A file is stored iff one was chosen and its name ends in ".csv", which also clears the banner; anything else drops the stored file and shows "Please upload a valid CSV file." |
| Upload.StartUpload | frontend/src/components/FileUpload.js:22-26 | Without a file nothing changes; with one the widget goes in flight with a clear banner and keeps the file |
| Upload.FailureMessage | frontend/src/components/FileUpload.js:45 | The banner is the server's `detail` when it is a non-empty string, and "Connection to AI Backend failed" otherwise |
| Upload.FinishUpload | frontend/src/components/FileUpload.js:43-48 | A success hands the body over unchanged, a failure sets the banner, the file is kept for a retry, and the widget always leaves the in-flight state |
| Upload.Step | frontend/src/components/FileUpload.js:11-87 | A click does nothing while in flight or without a file; an enabled click starts a request; a body is handed over only when a request in flight succeeds; choosing a file is the change handler with no body; a settle while in flight finishes the upload, and a settle otherwise changes nothing |
| Upload.Transport | frontend/src/components/FileUpload.js:36-45 | A 200 resolves with its body and any other status rejects with its `detail` |
| Upload.RunKeepsValid | frontend/src/components/FileUpload.js:11-20 | Whatever happens, a stored file has a ".csv" name |
| Upload.OneBodyPerRequest | frontend/src/components/FileUpload.js:22-48 | Every request a click sends is answered or is the single one still in flight, and each body handed to the parent is one of those answers; this balance needs the button's in-flight guard of line 87 |
| AuthForm.Toggle | frontend/src/components/Auth.js:73 | Flips the mode and keeps the inputs and the error line |
| AuthForm.ToggleTwice | frontend/src/components/Auth.js:73 | Two toggles restore the form |
| AuthForm.HandleAuth | frontend/src/components/Auth.js:15-23 | A submission clears the error and makes exactly one call with the typed credentials: sign-in in sign-in mode, account creation otherwise |
| AuthForm.ShownError | frontend/src/components/Auth.js:25 | The provider's message with its first "Firebase:" cut out; a message without one is shown as it is |
| AuthForm.ShownErrorKeepsRest | frontend/src/components/Auth.js:25 | A message that starts with "Firebase:" is shown as exactly what follows it, leading space included |
| AuthForm.Settle | frontend/src/components/Auth.js:24-26 | A failure shows the cleaned message and a success changes nothing |
| AuthForm.Step | frontend/src/components/Auth.js:15-73 | A call is made iff the form is submitted with both inputs filled and an email the browser accepts; the call clears the error and follows the mode; typing and toggling keep the error; the toggle, each input and the settle are exactly their handlers with no call; a call is exactly the submit handler's state and request, and a submit without a call leaves the form as it was |
| AuthForm.SubmitThenSuccess | frontend/src/components/Auth.js:17-23 | A submission the provider accepts leaves the error line empty |
| App.CountLine | frontend/src/App.js:111 | The count line ends in " occurrences detected [cite: 97]"; everything before that suffix is decimal digits, they read back as the count, and a leading zero occurs only for a count of zero |
| App.IssueRowsOf | frontend/src/App.js:105-114 | One entry per issue, in the order received, with its column and description |
| App.IssueRowsRoundTrip | frontend/src/App.js:105-114 | Reading the entries back gives the issue list the server sent |
| App.RenderReport | frontend/src/App.js:86-125 | A body without `issues_detected` throws; otherwise the report shows the file's name, the row count and the issue count, with the clean-state notice iff there are no issues and entries that read back as the issues |
| App.IssuesFoundCountsEntries | frontend/src/App.js:99-120 | The "Issues Found" figure equals the number of entries listed |
| App.Render | frontend/src/App.js:34-85 | The loader shows iff loading; otherwise the sign-in form iff nobody is signed in; otherwise the upload widget iff there is no data; otherwise the report |
| App.Remount | frontend/src/App.js:41-83 | A child on screen before and after keeps its state; any other child holds its initial state |
| App.Step | frontend/src/App.js:14-123 | A blank page ignores everything; a notification replaces the user, ends loading and keeps the data; an event reaches the child on screen, which takes its own step; the data changes only when the widget hands over a body, and then it is that body, or when the report is dismissed; dismissing returns to a fresh widget; the sign-out button on a signed-in screen makes the sign-out call, the form's provider call is made exactly when the form asks for one, and no call comes from anywhere else |
| App.InitialValid | frontend/src/App.js:9-11 | The shell starts on the loader with its children in their initial state |
| App.StepKeepsValid | frontend/src/App.js:41-83 | Each event keeps hidden children in their initial state and the widget's file a ".csv" file |
| App.RunKeepsValid | frontend/src/App.js:41-83 | The same holds after any sequence of events |
| App.LoadingNeverReturns | frontend/src/App.js:10-17 | Once the first notification has arrived, no sequence of events brings the loader back |
| App.LoaderWaits | frontend/src/App.js:34-39 | Before the first notification, every other event is ignored |
| App.ReportOutlivesSession | frontend/src/App.js:15-17 | Signing out keeps the report, and the next account to sign in is shown the same screen |
| App.BlankIsFinal | frontend/src/App.js:99 | After a render threw, no event changes anything or makes a call |
| ResultTable.TierOf | frontend/src/components/ResultTable.js:11-15 | High iff the score is above 0.9; Medium iff above 0.7 and at most 0.9; Low otherwise, including a missing score |
| ResultTable.TierMonotone | frontend/src/components/ResultTable.js:12-14 | A higher score never gets a lower tier |
| ResultTable.TierBoundaries | frontend/src/components/ResultTable.js:12-14 | 0.9 is Medium and 0.7 is Low; 0.91 is High and 0.71 is Medium |
| ResultTable.IconAgreesWithTier | frontend/src/components/ResultTable.js:48 | High always shows the check mark, Low never does, and Medium shows it exactly above 0.8 |
| ResultTable.MediumWithCheck | frontend/src/components/ResultTable.js:48 | 0.85 is Medium with the check mark; 0.75 is Medium without it |
| ResultTable.RowsShown | frontend/src/components/ResultTable.js:6-53 | A missing list shows the two sample rows; a present list shows one row per item in order, with the item's texts, its tier and the check mark exactly above 0.8 |
| ResultTable.EmptyIsNotMissing | frontend/src/components/ResultTable.js:6 | An empty list shows no rows and a missing one shows two |
| ResultTable.MockRows | frontend/src/components/ResultTable.js:6-9 | The sample rows are an Email row that is High and a City row that is Medium, both with the check mark |
| EndToEnd.RowLimitBlanksPage | backend/main.py:57-58 | A ".csv" upload with a row count outside [20, 500] reaches the shell as a success and leaves the page blank for good |
| EndToEnd.ReportShowsCounts | frontend/src/App.js:89-99 | When every collaborator succeeds, the report shows the file's name, the row count and the number of detected issues |
| EndToEnd.ErrorShowsDetail | frontend/src/components/FileUpload.js:44-45 | An error response keeps the widget on screen, out of flight, with the non-empty `detail` in its banner |
| EndToEnd.WidgetNeverGets400 | backend/main.py:45-49 | The widget only posts ".csv" names, so it never sees the endpoint's 400 |

## Left out

- Network and identity calls are not modelled as calls. Token fetching, the HTTP post, sign-in, account creation, sign-out and the subscription to the signed-in user appear only as events that carry their outcome, plus the commands the shell issues. Their timing is outside the model.
- Asynchronous interleavings are left out. A request still in flight when the widget is unmounted can resolve later and still set the shell's data, and nothing here models that stale response. The widget model only accepts a settle event while it is on screen and in flight.
- `backend/services/cleaner.py` is not part of this model, and neither is token verification in `backend/auth.py`. The detector and the language-model call are parameters. The verified token enters as its claims, and only the dict `get_current_user` builds from them (auth.py:37-41) is modelled.
- `json.loads`, `pd.read_csv` and Python's `str()` of arbitrary JSON values are abstract. `json.loads` is a function parameter, the row count is an input, and suggestion fields are `Option<string>` holding what `str()` printed.
- Float formatting is left out: the percentage in the confidence badge and the size in kilobytes. Confidence scores are `real`, and a score that is not a number is `None`.
- Presentation is left out: styles, the fade-in timer, the injected style sheet, CORS, the health check, the `/clean` endpoint and the server's entry point.
- Upload.FailureMessage: a non-string `detail` is not modelled, such as the list in a validation error. Such a detail would be truthy and handed to the banner as it is.
- Analyze.AnalyzeCsv: the encoding of the returned dict as JSON is not modelled. `json.loads` accepts `NaN` and `Infinity`, and such a value in a suggestion makes the response encoding fail after the handler has returned. The model states the report body the handler builds.
- The two `print` calls that log a reply the sanitiser could not parse (backend/main.py:103-104) are console output only. The model keeps the empty suggestion list they are followed by.
- AuthForm.Step: the browser's check of the email field's shape is an input flag of the submit event, not a model of the browser's rule.
- The table's export button calls a callback the parent passes in (ResultTable.js:21), and no parent passes one. The button is not modelled.
- The signed-in email in the navigation bar (App.js:57) is displayed text only. The model keeps the user's email but states nothing about its display.

=== FILE: analyze.dfy ===
/** `POST /analyze` (backend/main.py, lines 33-117): admission checks,
    the suggestion filter, and the payload the client receives. Reading the
    upload, `pd.read_csv`, the rule-based detector, the language-model call
    and `json.loads` are the parameters of the model. */
module Analyze {
  import opened Wrappers
  import opened Text
  import opened Payload
  import Sanitiser

  /** One element of the list `json.loads` produced: a JSON object (which
      has `.get`) or anything else (which does not). */
  datatype Element = Object(suggestion: Suggestion) | NotObject

  /** What `json.loads` made of the sanitised text: a parse error, a JSON
      array, or some other JSON value. Iterating a non-empty object or
      string reaches `.get` on a `str` and raises; an empty one, a number, a
      boolean or `null` yields no suggestion either, so all other values are
      one case. */
  datatype Parsed = Malformed | Array(items: seq<Element>) | NotAList

  const InvalidFormatDetail: string := "Invalid file format. Please upload a CSV file."
  const MinRows: nat := 20
  const MaxRows: nat := 500

  /** `str(s.get(key, ""))`: the field's text, or "" when the key is absent. */
  function FieldText(f: Option<string>): string {
    f.GetOr("")
  }

  /** Lines 98-99: the language model actually changed something. */
  predicate Keep(s: Suggestion) {
    var original := Strip(FieldText(s.original));
    original != Strip(FieldText(s.fix)) && original != ""
  }

  /** `a` is `b` with some elements left out, the rest in their order. */
  predicate IsSubsequence<T(==)>(a: seq<T>, b: seq<T>)
    decreases |b|
  {
    if a == [] then true
    else if b == [] then false
    else if a[0] == b[0] then IsSubsequence(a[1..], b[1..])
    else IsSubsequence(a, b[1..])
  }

  /** The elements of `xs` that satisfy `keep`, in their order, each as
      often as it came. */
  function FilterBy<T(==,!new)>(xs: seq<T>, keep: T -> bool): (r: seq<T>)
    ensures IsSubsequence(r, xs)
    ensures forall i :: 0 <= i < |r| ==> keep(r[i])
    ensures forall x :: multiset(r)[x] == if keep(x) then multiset(xs)[x] else 0
  {
    if xs == [] then []
    else
      var rest := FilterBy(xs[1..], keep);
      assert xs == [xs[0]] + xs[1..];
      if keep(xs[0]) then
        [xs[0]] + rest
      else
        assert rest != [] ==> keep(rest[0]);
        rest
  }

  /** Lines 96-100, the list comprehension: keeps exactly the suggestions
      that change something. */
  function Filter(xs: seq<Suggestion>): (r: seq<Suggestion>)
    ensures IsSubsequence(r, xs)
    ensures forall i :: 0 <= i < |r| ==> Keep(r[i])
    ensures forall x :: multiset(r)[x] == if Keep(x) then multiset(xs)[x] else 0
  {
    FilterBy(xs, Keep)
  }

  /** Filtering what was already filtered changes nothing. */
  lemma FilterIdempotent(xs: seq<Suggestion>)
    ensures Filter(Filter(xs)) == Filter(xs)
  {
    KeptAreFixed(Filter(xs), Keep);
  }

  /** A list whose every element satisfies `keep` passes the filter whole. */
  lemma {:induction false} KeptAreFixed<T(!new)>(xs: seq<T>, keep: T -> bool)
    requires forall i :: 0 <= i < |xs| ==> keep(xs[i])
    ensures FilterBy(xs, keep) == xs
  {
    if xs != [] {
      KeptAreFixed(xs[1..], keep);
    }
  }

  /** A subsequence holds each element at most as often as the whole. */
  lemma {:induction false} SubsequenceCounts<T>(a: seq<T>, b: seq<T>)
    requires IsSubsequence(a, b)
    ensures multiset(a) <= multiset(b)
    decreases |b|
  {
    if a != [] {
      assert b == [b[0]] + b[1..];
      if a[0] == b[0] {
        SubsequenceCounts(a[1..], b[1..]);
        assert a == [a[0]] + a[1..];
      } else {
        SubsequenceCounts(a, b[1..]);
      }
    }
  }

  /** The filter's contract determines its result: a subsequence of `xs`
      holding each element that passes `keep` as often as `xs` does, and no
      other, is the filtered list. */
  lemma {:induction false} FilterByUnique<T(!new)>(xs: seq<T>, keep: T -> bool, r: seq<T>)
    requires IsSubsequence(r, xs)
    requires forall x :: multiset(r)[x] == if keep(x) then multiset(xs)[x] else 0
    ensures r == FilterBy(xs, keep)
    decreases |xs|
  {
    if xs != [] {
      var x0 := xs[0];
      assert xs == [x0] + xs[1..];
      if keep(x0) {
        assert r != [] && r[0] == x0 by {
          assert multiset(r)[x0] == multiset(xs[1..])[x0] + 1;
          if r == [] || r[0] != x0 {
            SubsequenceCounts(r, xs[1..]);
            assert false;
          }
        }
        assert r == [x0] + r[1..];
        forall x ensures multiset(r[1..])[x] == if keep(x) then multiset(xs[1..])[x] else 0 {
        }
        FilterByUnique(xs[1..], keep, r[1..]);
      } else {
        assert r == [] || r[0] != x0;
        forall x ensures multiset(r)[x] == if keep(x) then multiset(xs[1..])[x] else 0 {
        }
        FilterByUnique(xs[1..], keep, r);
      }
    }
  }

  /** The comprehension calls `.get` on every element: it yields the objects
      when all elements are objects, and raises (`None` here) otherwise. */
  function Objects(items: seq<Element>): (r: Option<seq<Suggestion>>)
    ensures r.Some? <==> forall i :: 0 <= i < |items| ==> items[i].Object?
    ensures r.Some? ==> |r.value| == |items|
    ensures r.Some? ==> forall i :: 0 <= i < |items| ==> r.value[i] == items[i].suggestion
  {
    if items == [] then Some([])
    else if items[0].NotObject? then None
    else match Objects(items[1..])
      case None =>
        assert exists i :: 1 <= i < |items| && !items[i].Object? by {
          var i :| 0 <= i < |items[1..]| && !items[1..][i].Object?;
          assert !items[i + 1].Object?;
        }
        None
      case Some(rest) => Some([items[0].suggestion] + rest)
  }

  /** Lines 92-105 after parsing: the suggestions kept from what `json.loads`
      returned. Whatever went wrong, the result is the empty list, never an
      error: a parse error, a value that is not a list, or a list holding
      anything but objects. */
  function SuggestionsOf(parsed: Parsed): (r: seq<Suggestion>)
    ensures forall i :: 0 <= i < |r| ==> Keep(r[i])
    ensures !parsed.Array? ==> r == []
    ensures parsed.Array? && (exists i :: 0 <= i < |parsed.items| && parsed.items[i].NotObject?) ==>
              r == []
    ensures parsed.Array? && (forall i :: 0 <= i < |parsed.items| ==> parsed.items[i].Object?) ==>
              && IsSubsequence(r, Objects(parsed.items).value)
              && (forall x :: multiset(r)[x] == if Keep(x) then multiset(Objects(parsed.items).value)[x] else 0)
              && forall i :: 0 <= i < |parsed.items| && Keep(parsed.items[i].suggestion) ==>
                   parsed.items[i].suggestion in r
  {
    match parsed
    case Array(items) =>
      (match Objects(items)
       case Some(objects) =>
         KeptSurvive(items, objects);
         Filter(objects)
       case None => [])
    case _ => []
  }

  /** Every object that changes something is in the filtered list. */
  lemma KeptSurvive(items: seq<Element>, objects: seq<Suggestion>)
    requires |objects| == |items|
    requires forall i :: 0 <= i < |items| ==> items[i].Object? && objects[i] == items[i].suggestion
    ensures forall i :: 0 <= i < |items| && Keep(items[i].suggestion) ==>
              items[i].suggestion in Filter(objects)
  {
    var r := Filter(objects);
    forall i | 0 <= i < |items| && Keep(items[i].suggestion)
      ensures items[i].suggestion in r
    {
      assert objects[i] in multiset(objects);
      assert multiset(r)[objects[i]] > 0;
    }
  }

  /** Lines 67-105: the suggestions for a raw reply of the language model. */
  function ExtractSuggestions(raw: string, loads: string -> Parsed): (r: seq<Suggestion>)
    ensures forall i :: 0 <= i < |r| ==> Keep(r[i])
    ensures var parsed := loads(Sanitiser.Sanitise(raw));
            && (!parsed.Array? ==> r == [])
            && (parsed.Array? && (exists i :: 0 <= i < |parsed.items| && parsed.items[i].NotObject?) ==>
                  r == [])
            && (parsed.Array? && (forall i :: 0 <= i < |parsed.items| ==> parsed.items[i].Object?) ==>
                  && IsSubsequence(r, Objects(parsed.items).value)
                  && forall x :: multiset(r)[x] == if Keep(x) then multiset(Objects(parsed.items).value)[x] else 0)
  {
    SuggestionsOf(loads(Sanitiser.Sanitise(raw)))
  }

  /** The `error` text of a row-count rejection (line 58). */
  function RowLimitMessage(rows: nat): string {
    "File size is " + Decimal(rows) + " rows. Must be between 20 and 500 rows."
  }

  /** The row-count rejection names the count, in decimal, right after
      "File size is ". */
  lemma RowLimitMessageNamesCount(rows: nat)
    ensures var m := RowLimitMessage(rows);
            var d := |Decimal(rows)|;
            13 + d <= |m| && DecimalValue(m[13..13 + d]) == rows
  {
    var m := RowLimitMessage(rows);
    assert m[13..13 + |Decimal(rows)|] == Decimal(rows);
    DecimalRoundTrip(rows);
  }

  /** The dict `get_current_user` (backend/auth.py, lines 37-41) returns for
      the verified token `claims`: the keys "uid", "email" and "name" are
      always there, holding `None` for a claim the token lacks. */
  function CurrentUser(claims: map<string, string>): map<string, Option<string>> {
    map key | key in {"uid", "email", "name"} :: if key in claims then Some(claims[key]) else None
  }

  /** `user.get("email", "Unknown")` (line 110): the value under "email",
      `None` standing for Python's `None`, or "Unknown" when the key is
      absent. */
  function UserField(user: map<string, Option<string>>): Option<string> {
    if "email" in user then user["email"] else Some("Unknown")
  }

  /** `POST /analyze` for an upload named `filename` by the caller whose
      dict from `get_current_user` is `user`. `frame` is the row count
      `pd.read_csv` found, or the message of what reading raised; `detect`
      and `repair` are the rule-based report and the language model's raw
      reply, or the message of what they raised; `loads` is `json.loads`. */
  function AnalyzeCsv(
    filename: string,
    user: map<string, Option<string>>,
    frame: Result<nat>,
    detect: Result<seq<Issue>>,
    repair: Result<string>,
    loads: string -> Parsed): (r: Response)
    // lines 45-49: the suffix check comes first, whatever the file holds
    ensures !EndsWith(filename, ".csv") ==> r == HttpError(400, InvalidFormatDetail)
    // lines 116-117: anything raised after that is a 500
    ensures r.HttpError? && r.status != 400 ==>
              r.status == 500 && EndsWith(filename, ".csv")
    ensures EndsWith(filename, ".csv") && frame.Failure? ==>
              r == HttpError(500, "Error processing file: " + frame.message)
    // lines 61 and 64: what the detector or the language model call raised
    ensures && EndsWith(filename, ".csv") && frame.Success? && MinRows <= frame.value <= MaxRows
            && detect.Failure? ==>
              r == HttpError(500, "Error processing file: " + detect.message)
    ensures && EndsWith(filename, ".csv") && frame.Success? && MinRows <= frame.value <= MaxRows
            && detect.Success? && repair.Failure? ==>
              r == HttpError(500, "Error processing file: " + repair.message)
    // lines 57-58: a row count outside [20, 500] is a 200 carrying only `error`
    ensures EndsWith(filename, ".csv") && frame.Success? && !(MinRows <= frame.value <= MaxRows) ==>
              r == Ok(RowLimitBody(RowLimitMessage(frame.value)))
    // lines 108-114: the report, once every collaborator succeeded
    ensures r.Ok? && r.body.ReportBody? ==>
              && EndsWith(filename, ".csv") && frame.Success? && detect.Success? && repair.Success?
              && r.body.filename == filename
              && r.body.user == UserField(user)
              && r.body.totalRows == frame.value && MinRows <= frame.value <= MaxRows
              && r.body.issuesDetected == detect.value
              && r.body.suggestions == ExtractSuggestions(repair.value, loads)
    // a reply the sanitiser or the parser cannot use never turns into an error
    ensures (&& EndsWith(filename, ".csv") && frame.Success? && MinRows <= frame.value <= MaxRows
             && detect.Success? && repair.Success?) ==> r.Ok? && r.body.ReportBody?
  {
    if !EndsWith(filename, ".csv") then
      HttpError(400, InvalidFormatDetail)
    else match frame
      case Failure(e) => HttpError(500, "Error processing file: " + e)
      case Success(rows) =>
        if rows < MinRows || rows > MaxRows then
          Ok(RowLimitBody(RowLimitMessage(rows)))
        else match (detect, repair)
          case (Success(issues), Success(raw)) =>
            Ok(ReportBody(
              filename,
              UserField(user),
              rows,
              issues,
              ExtractSuggestions(raw, loads)))
          case (Failure(e), _) => HttpError(500, "Error processing file: " + e)
          case (_, Failure(e)) => HttpError(500, "Error processing file: " + e)
  }

  /** Behind `get_current_user`, the report's `user` is the token's email
      claim, `null` when the token has none: the "Unknown" default of line
      110 is never taken. */
  lemma ReportUserIsEmailClaim(
    filename: string,
    claims: map<string, string>,
    frame: Result<nat>,
    detect: Result<seq<Issue>>,
    repair: Result<string>,
    loads: string -> Parsed)
    ensures var r := AnalyzeCsv(filename, CurrentUser(claims), frame, detect, repair, loads);
            r.Ok? && r.body.ReportBody? ==>
              r.body.user == (if "email" in claims then Some(claims["email"]) else None)
  {
    assert "email" in CurrentUser(claims);
  }
}

=== FILE: app.dfy ===
/** The application shell (frontend/src/App.js): the session flags, the
    choice of what is on screen, the audit report, and the routing of user
    actions to the one child component that is mounted. */
module App {
  import opened Wrappers
  import opened Text
  import Payload
  import Upload
  import AuthForm

  /** The signed-in account, as far as the shell reads it. */
  datatype User = User(email: string)

  /** Lines 9-11, with the state of the two children that keep some. A
      child's state lives only while it is mounted. */
  datatype State = State(
    user: Option<User>,
    loading: bool,
    analysisData: Option<Payload.Body>,
    upload: Upload.State,
    authForm: AuthForm.State)

  /** Lines 9-11: no user, waiting for the first notification, no report. */
  const Initial: State := State(None, true, None, Upload.Initial, AuthForm.Initial)

  const ReportTitlePrefix: string := "Audit Report: "
  const CountSuffix: string := " occurrences detected [cite: 97]"

  /** One entry of the issue list (lines 106-112): the column, the
      description and the count line, as displayed. */
  datatype IssueRow = IssueRow(column: string, issue: string, countLine: string)

  /** Lines 103-121: the list area shows either the clean-state notice or
      the issue entries. */
  datatype Listing = CleanState | IssueRows(rows: seq<IssueRow>)

  /** Lines 86-125: the report's title, its two statistics, and the list. */
  datatype Report = Report(title: string, totalRows: nat, issuesFound: nat, listing: Listing)

  /** What is on screen. `Blank` is what is left after a render threw: with
      no error boundary, the whole tree is unmounted. */
  datatype Screen = Loader | AuthScreen | UploadScreen | ReportScreen(report: Report) | Blank

  /** The calls the shell hands to the identity provider. */
  datatype Command = SignOutCall | ProviderCall(request: AuthForm.Request)

  datatype Event =
    | AuthChanged(current: Option<User>)   // lines 15-17, the subscription's callback
    | SignOutClicked                       // line 59
    | UploadEvent(uploadEvent: Upload.Event)
    | AuthEvent(authEvent: AuthForm.Event)
    | ResetClicked                         // line 123, "Upload Another CSV"

  /** Line 111: the count line of one issue. */
  function CountLine(count: nat): (r: string)
    ensures |r| > |CountSuffix| && r[|r| - |CountSuffix|..] == CountSuffix
    ensures DecimalValue(r[..|r| - |CountSuffix|]) == count
    ensures forall k :: 0 <= k < |r| - |CountSuffix| ==> '0' <= r[k] <= '9'
    ensures r[0] == '0' ==> count == 0
  {
    var r := Decimal(count) + CountSuffix;
    assert r[..|r| - |CountSuffix|] == Decimal(count);
    DecimalRoundTrip(count);
    r
  }

  function IssueRowOf(i: Payload.Issue): IssueRow {
    IssueRow(i.column, i.issue, CountLine(i.count))
  }

  /** Lines 105-114: one entry per issue, in the order received. */
  function IssueRowsOf(issues: seq<Payload.Issue>): (r: seq<IssueRow>)
    ensures |r| == |issues|
    ensures forall k :: 0 <= k < |r| ==>
              r[k].column == issues[k].column && r[k].issue == issues[k].issue
  {
    if issues == [] then [] else [IssueRowOf(issues[0])] + IssueRowsOf(issues[1..])
  }

  /** Reads the issues back off the displayed entries. */
  function ReadBack(rows: seq<IssueRow>): seq<Payload.Issue> {
    if rows == [] then []
    else
      var line := rows[0].countLine;
      var digits := if |line| >= |CountSuffix| then line[..|line| - |CountSuffix|] else line;
      [Payload.Issue(rows[0].column, rows[0].issue, DecimalValue(digits))] + ReadBack(rows[1..])
  }

  /** The displayed entries carry every issue whole: reading them back gives
      the list the server sent. */
  lemma {:induction false} IssueRowsRoundTrip(issues: seq<Payload.Issue>)
    ensures ReadBack(IssueRowsOf(issues)) == issues
    decreases |issues|
  {
    if issues != [] {
      IssueRowsRoundTrip(issues[1..]);
    }
  }

  /** Lines 86-125: the report for a response body. A row-count rejection
      has no `issues_detected`, and line 99 reads its `length`: rendering
      throws (`None`). */
  function RenderReport(data: Payload.Body): (r: Option<Report>)
    ensures r.None? <==> data.RowLimitBody?
    ensures r.Some? ==>
              && r.value.title == ReportTitlePrefix + data.filename
              && r.value.totalRows == data.totalRows
              && r.value.issuesFound == |data.issuesDetected|
              && (r.value.listing.CleanState? <==> data.issuesDetected == [])
              && (r.value.listing.IssueRows? ==> ReadBack(r.value.listing.rows) == data.issuesDetected)
  {
    match data
    case RowLimitBody(_) => None
    case ReportBody(filename, _, totalRows, issues, _) =>
      IssueRowsRoundTrip(issues);
      Some(Report(
        ReportTitlePrefix + filename,
        totalRows,
        |issues|,
        if |issues| > 0 then IssueRows(IssueRowsOf(issues)) else CleanState))
  }

  /** The "Issues Found" figure is the number of entries listed. */
  lemma IssuesFoundCountsEntries(data: Payload.Body)
    requires data.ReportBody?
    ensures var r := RenderReport(data).value;
            r.issuesFound == (if r.listing.IssueRows? then |r.listing.rows| else 0)
  {
  }

  /** Lines 34-41 and 81-85: the loader wins over everything, then the sign-in
      form when nobody is signed in, then the upload widget until there is
      data, then the report. */
  function Render(s: State): (r: Screen)
    ensures s.loading <==> r.Loader?
    ensures r.AuthScreen? <==> !s.loading && s.user.None?
    ensures r.UploadScreen? <==> !s.loading && s.user.Some? && s.analysisData.None?
    ensures r.ReportScreen? <==>
              !s.loading && s.user.Some? && s.analysisData.Some? && s.analysisData.value.ReportBody?
    ensures r.ReportScreen? ==> Some(r.report) == RenderReport(s.analysisData.value)
  {
    if s.loading then Loader
    else if s.user.None? then AuthScreen
    else match s.analysisData
      case None => UploadScreen
      case Some(data) =>
        match RenderReport(data)
        case Some(report) => ReportScreen(report)
        case None => Blank
  }

  /** A child that is not on screen is unmounted, and the next time it
      mounts it starts from its initial state. */
  predicate Mounted(s: State) {
    && (!Render(s).UploadScreen? ==> s.upload == Upload.Initial)
    && (!Render(s).AuthScreen? ==> s.authForm == AuthForm.Initial)
  }

  /** The children after the screen changed from `before` to what `s`
      shows: a child on screen both times keeps its state, any other child
      is either unmounted or freshly mounted, and holds its initial state. */
  function Remount(before: Screen, s: State): (r: State)
    ensures r.user == s.user && r.loading == s.loading && r.analysisData == s.analysisData
    ensures Mounted(r)
    ensures r.upload == (if before.UploadScreen? && Render(s).UploadScreen? then s.upload else Upload.Initial)
    ensures r.authForm == (if before.AuthScreen? && Render(s).AuthScreen? then s.authForm else AuthForm.Initial)
  {
    var v := Render(s);
    s.(upload := if before.UploadScreen? && v.UploadScreen? then s.upload else Upload.Initial,
       authForm := if before.AuthScreen? && v.AuthScreen? then s.authForm else AuthForm.Initial)
  }

  /** The shell's reaction to one event, and the provider call it makes, if
      any. Only what is on screen can be clicked; after a render threw,
      nothing reacts any more. */
  function Step(s: State, e: Event): (r: (State, Option<Command>))
    // a blank page is final
    ensures Render(s).Blank? ==> r == (s, None)
    // lines 15-17: a notification replaces the user, ends loading, and
    // leaves the data alone
    ensures !Render(s).Blank? && e.AuthChanged? ==>
              r.0.user == e.current && !r.0.loading && r.0.analysisData == s.analysisData
    // nothing else touches the session flags
    ensures !e.AuthChanged? ==> r.0.user == s.user && r.0.loading == s.loading
    // line 83: the data changes only when the widget hands a body over;
    // line 123: or the report is dismissed
    ensures r.0.analysisData != s.analysisData ==>
              || (&& e.UploadEvent? && Render(s).UploadScreen?
                  && Upload.Step(s.upload, e.uploadEvent).1.Some?
                  && r.0.analysisData == Upload.Step(s.upload, e.uploadEvent).1)
              || (e.ResetClicked? && Render(s).ReportScreen? && r.0.analysisData.None?)
    // lines 81-84: the body the widget hands over is what the report shows
    ensures e.UploadEvent? && Render(s).UploadScreen? && Upload.Step(s.upload, e.uploadEvent).1.Some? ==>
              r.0.analysisData == Upload.Step(s.upload, e.uploadEvent).1
    // events reach the child on screen: the widget takes its own step, and
    // without a body the shell's data stays
    ensures e.UploadEvent? && Render(s).UploadScreen? && Upload.Step(s.upload, e.uploadEvent).1.None? ==>
              r.0.analysisData == s.analysisData && r.0.upload == Upload.Step(s.upload, e.uploadEvent).0
    // the sign-in form takes its own step, and its provider call is made
    ensures e.AuthEvent? && Render(s).AuthScreen? ==>
              && r.0.authForm == AuthForm.Step(s.authForm, e.authEvent).0
              && (r.1.Some? <==> AuthForm.Step(s.authForm, e.authEvent).1.Some?)
              && (r.1.Some? ==> r.1.value == ProviderCall(AuthForm.Step(s.authForm, e.authEvent).1.value))
    ensures e.ResetClicked? && Render(s).ReportScreen? ==>
              Render(r.0).UploadScreen? && r.0.upload == Upload.Initial
    // line 59: the sign-out button sits in the navigation bar of the
    // signed-in layout; the sign-in form is the only other caller
    ensures e.SignOutClicked? && (Render(s).UploadScreen? || Render(s).ReportScreen?) ==>
              r.1 == Some(SignOutCall)
    ensures r.1 == Some(SignOutCall) ==>
              e.SignOutClicked? && (Render(s).UploadScreen? || Render(s).ReportScreen?)
    ensures r.1.Some? && r.1.value.ProviderCall? ==> e.AuthEvent? && Render(s).AuthScreen?
  {
    var v := Render(s);
    if v.Blank? then (s, None)
    else match e
      case AuthChanged(current) =>
        (Remount(v, s.(user := current, loading := false)), None)
      case SignOutClicked =>
        (s, if v.UploadScreen? || v.ReportScreen? then Some(SignOutCall) else None)
      case UploadEvent(ue) =>
        if v.UploadScreen? then
          var (next, body) := Upload.Step(s.upload, ue);
          (Remount(v, s.(upload := next, analysisData := if body.Some? then body else s.analysisData)), None)
        else (s, None)
      case AuthEvent(ae) =>
        if v.AuthScreen? then
          var (next, request) := AuthForm.Step(s.authForm, ae);
          (s.(authForm := next), if request.Some? then Some(ProviderCall(request.value)) else None)
        else (s, None)
      case ResetClicked =>
        if v.ReportScreen? then (Remount(v, s.(analysisData := None)), None) else (s, None)
  }

  /** The shell after a sequence of events, with the calls it made, in order. */
  function Run(s: State, events: seq<Event>): (r: (State, seq<Command>))
    decreases |events|
  {
    if events == [] then (s, [])
    else
      var (next, out) := Step(s, events[0]);
      var (last, rest) := Run(next, events[1..]);
      (last, (if out.Some? then [out.value] else []) + rest)
  }

  /** The shell's invariant: hidden children hold their initial state and the
      widget only ever holds a ".csv" file. */
  predicate Valid(s: State) {
    Mounted(s) && Upload.Valid(s.upload)
  }

  lemma InitialValid()
    ensures Valid(Initial) && Render(Initial).Loader?
  {
  }

  lemma StepKeepsValid(s: State, e: Event)
    requires Valid(s)
    ensures Valid(Step(s, e).0)
  {
    if !Render(s).Blank? && e.UploadEvent? && Render(s).UploadScreen? {
      Upload.RunKeepsValid(s.upload, [e.uploadEvent]);
      assert Upload.Run(s.upload, [e.uploadEvent]).0 == Upload.Step(s.upload, e.uploadEvent).0;
    }
  }

  lemma {:induction false} RunKeepsValid(s: State, events: seq<Event>)
    requires Valid(s)
    ensures Valid(Run(s, events).0)
    decreases |events|
  {
    if events != [] {
      StepKeepsValid(s, events[0]);
      RunKeepsValid(Step(s, events[0]).0, events[1..]);
    }
  }

  /** Lines 10 and 17: once the first notification arrived, the loader never
      comes back. */
  lemma {:induction false} LoadingNeverReturns(s: State, events: seq<Event>)
    requires !s.loading
    ensures !Run(s, events).0.loading
    decreases |events|
  {
    if events != [] {
      LoadingNeverReturns(Step(s, events[0]).0, events[1..]);
    }
  }

  /** Until the first notification, the loader ignores every other event. */
  lemma {:induction false} LoaderWaits(s: State, events: seq<Event>)
    requires s.loading
    requires forall k :: 0 <= k < |events| ==> !events[k].AuthChanged?
    ensures Run(s, events) == (s, [])
    decreases |events|
  {
    if events != [] {
      assert Step(s, events[0]) == (s, None);
      LoaderWaits(s, events[1..]);
      assert Run(s, events[1..]) == (s, []);
      assert Run(s, events).0 == s;
      assert Run(s, events).1 == [] + Run(s, events[1..]).1 == [];
    }
  }

  /** Signing out keeps the report in memory, and the next account to sign
      in is shown it. */
  lemma ReportOutlivesSession(s: State, next: User)
    requires Render(s).ReportScreen?
    ensures var out := Step(s, AuthChanged(None)).0;
            && Render(out).AuthScreen?
            && Render(Step(out, AuthChanged(Some(next))).0) == Render(s)
  {
  }

  /** A render that throws leaves the page blank for good: no later event
      changes anything or reaches the identity provider. */
  lemma {:induction false} BlankIsFinal(s: State, events: seq<Event>)
    requires Render(s).Blank?
    ensures Run(s, events) == (s, [])
    decreases |events|
  {
    if events != [] {
      assert Step(s, events[0]) == (s, None);
      BlankIsFinal(s, events[1..]);
      assert Run(s, events[1..]) == (s, []);
      assert Run(s, events).0 == s;
      assert Run(s, events).1 == [] + Run(s, events[1..]).1 == [];
    }
  }
}

=== FILE: auth_form.dfy ===
/** The sign-in / sign-up form (frontend/src/components/Auth.js): a mode
    flag, the two inputs, and the error line, driven by the mode toggle,
    typing, submission, and the identity provider's answer. */
module AuthForm {
  import opened Wrappers
  import opened Text

  /** Lines 10-13: `isLogin` is true in sign-in mode. */
  datatype State = State(isLogin: bool, email: string, password: string, error: string)

  /** Line 10: the form opens in sign-in mode, everything else empty. */
  const Initial: State := State(true, "", "", "")

  /** The prefix the provider puts in front of its messages. */
  const ProviderPrefix: string := "Firebase:"

  /** The one provider call a submission makes. */
  datatype Request =
    | SignInRequest(email: string, password: string)
    | CreateAccountRequest(email: string, password: string)

  datatype Event =
    | ToggleMode                        // line 73, the "Sign Up" / "Log In" link
    | EmailInput(value: string)         // line 46
    | PasswordInput(value: string)      // line 57
    | Submit(emailAccepted: bool)       // the form's submit, with the browser's verdict on `type="email"`
    | ProviderSettled(failure: Option<string>)  // the call ended: None, or the error's message

  /** Line 73: flips the mode and nothing else. */
  function Toggle(s: State): (r: State)
    ensures r.isLogin != s.isLogin
    ensures r.email == s.email && r.password == s.password && r.error == s.error
  {
    s.(isLogin := !s.isLogin)
  }

  /** Two toggles restore the form. */
  lemma ToggleTwice(s: State)
    ensures Toggle(Toggle(s)) == s
  {
  }

  /** Lines 15-23, up to the provider call: the error line is cleared, and
      exactly one call is made — sign-in in sign-in mode, account creation
      otherwise — with the credentials typed. */
  function HandleAuth(s: State): (r: (State, Request))
    ensures r.0 == s.(error := "")
    ensures r.1.SignInRequest? <==> s.isLogin
    ensures r.1.email == s.email && r.1.password == s.password
  {
    (s.(error := ""),
     if s.isLogin then SignInRequest(s.email, s.password)
     else CreateAccountRequest(s.email, s.password))
  }

  /** Line 25: the provider's message with only its first "Firebase:"
      removed; a message without one is shown as it is. */
  function ShownError(message: string): (r: string)
    ensures !Contains(message, ProviderPrefix) ==> r == message
    ensures Contains(message, ProviderPrefix) ==>
              var i := Find(message, ProviderPrefix).value;
              |r| == |message| - |ProviderPrefix| && r[..i] + ProviderPrefix + r[i..] == message
  {
    RemoveFirst(message, ProviderPrefix)
  }

  /** A message that begins with the prefix is shown with everything after
      it, so the space the provider puts after "Firebase:" stays. */
  lemma ShownErrorKeepsRest(rest: string)
    ensures ShownError(ProviderPrefix + rest) == rest
  {
    var m := ProviderPrefix + rest;
    assert m[..|ProviderPrefix|] == ProviderPrefix;
    assert Find(m, ProviderPrefix) == Some(0);
    var r := ShownError(m);
    assert r[..0] + ProviderPrefix + r[0..] == ProviderPrefix + r;
    assert r == m[|ProviderPrefix|..] == rest;
  }

  /** Lines 24-26: a failure shows the cleaned message, a success leaves the
      form as it was. */
  function Settle(s: State, failure: Option<string>): (r: State)
    ensures failure.None? ==> r == s
    ensures failure.Some? ==> r == s.(error := ShownError(failure.value))
  {
    match failure
    case Some(message) => s.(error := ShownError(message))
    case None => s
  }

  /** The form's reaction to one event, and the provider call it makes, if
      any. The browser submits only when both `required` inputs are filled
      and it accepts the email's shape. */
  function Step(s: State, e: Event): (r: (State, Option<Request>))
    ensures r.1.Some? <==> e.Submit? && e.emailAccepted && s.email != "" && s.password != ""
    ensures r.1.Some? ==> r.0.error == "" && (r.1.value.SignInRequest? <==> s.isLogin)
    ensures !e.ProviderSettled? && !e.Submit? ==> r.0.error == s.error
    ensures e.ToggleMode? ==> r == (Toggle(s), None)
    ensures e.EmailInput? ==> r == (s.(email := e.value), None)
    ensures e.PasswordInput? ==> r == (s.(password := e.value), None)
    ensures e.ProviderSettled? ==> r == (Settle(s, e.failure), None)
    ensures r.1.Some? ==> r == (HandleAuth(s).0, Some(HandleAuth(s).1))
    ensures e.Submit? && r.1.None? ==> r.0 == s
  {
    match e
    case ToggleMode => (Toggle(s), None)
    case EmailInput(v) => (s.(email := v), None)
    case PasswordInput(v) => (s.(password := v), None)
    case Submit(emailAccepted) =>
      if emailAccepted && s.email != "" && s.password != "" then
        var (next, request) := HandleAuth(s);
        (next, Some(request))
      else (s, None)
    case ProviderSettled(failure) => (Settle(s, failure), None)
  }

  /** A submission the provider accepts leaves the error line empty. */
  lemma SubmitThenSuccess(s: State)
    requires s.email != "" && s.password != ""
    ensures Step(Step(s, Submit(true)).0, ProviderSettled(None)).0.error == ""
  {
  }
}

=== FILE: end_to_end.dfy ===
/** What the analysis endpoint's answer does once it reaches the browser:
    the endpoint (backend/main.py), the widget that posts the file
    (FileUpload.js) and the shell that shows the result (App.js), together. */
module EndToEnd {
  import opened Wrappers
  import opened Text
  import Payload
  import Analyze
  import Upload
  import App

  /** The shell is showing the widget with a request in flight. */
  predicate Waiting(s: App.State) {
    App.Render(s).UploadScreen? && s.upload.uploading
  }

  /** The shell after the endpoint's answer settles the request in flight. */
  function Deliver(s: App.State, response: Payload.Response): App.State {
    App.Step(s, App.UploadEvent(Upload.Settle(Upload.Transport(response)))).0
  }

  /** A ".csv" upload whose row count is outside [20, 500] gets a 200 whose
      body has no `issues_detected`; the widget hands it on as a success,
      and the report throws while rendering: the page goes blank for good. */
  lemma RowLimitBlanksPage(
    s: App.State,
    filename: string,
    user: map<string, Option<string>>,
    rows: nat,
    detect: Result<seq<Payload.Issue>>,
    repair: Result<string>,
    loads: string -> Analyze.Parsed)
    requires Waiting(s)
    requires EndsWith(filename, ".csv") && !(Analyze.MinRows <= rows <= Analyze.MaxRows)
    ensures var next := Deliver(s, Analyze.AnalyzeCsv(filename, user, Success(rows), detect, repair, loads));
            && App.Render(next).Blank?
            && forall events: seq<App.Event> :: App.Run(next, events) == (next, [])
  {
    var next := Deliver(s, Analyze.AnalyzeCsv(filename, user, Success(rows), detect, repair, loads));
    assert next.analysisData == Some(Payload.RowLimitBody(Analyze.RowLimitMessage(rows)));
    forall events: seq<App.Event> ensures App.Run(next, events) == (next, []) {
      App.BlankIsFinal(next, events);
    }
  }

  /** When every collaborator succeeds, the report shows the file's name,
      the row count, and as many issues as the detector found. */
  lemma ReportShowsCounts(
    s: App.State,
    filename: string,
    user: map<string, Option<string>>,
    rows: nat,
    issues: seq<Payload.Issue>,
    raw: string,
    loads: string -> Analyze.Parsed)
    requires Waiting(s)
    requires EndsWith(filename, ".csv") && Analyze.MinRows <= rows <= Analyze.MaxRows
    ensures var screen := App.Render(Deliver(s, Analyze.AnalyzeCsv(filename, user, Success(rows), Success(issues), Success(raw), loads)));
            && screen.ReportScreen?
            && screen.report.title == App.ReportTitlePrefix + filename
            && screen.report.totalRows == rows
            && screen.report.issuesFound == |issues|
  {
    var response := Analyze.AnalyzeCsv(filename, user, Success(rows), Success(issues), Success(raw), loads);
    assert response.Ok? && response.body.ReportBody?;
    DeliverOk(s, response.body);
  }

  /** A 200 settles the request and its body becomes the shell's data. */
  lemma DeliverOk(s: App.State, body: Payload.Body)
    requires Waiting(s)
    ensures var next := Deliver(s, Payload.Ok(body));
            next.analysisData == Some(body) && next.user == s.user && !next.loading
  {
    assert Upload.Step(s.upload, Upload.Settle(Upload.Succeeded(body))).1 == Some(body);
  }

  /** Any error status leaves the widget on screen, out of flight, with the
      endpoint's `detail` in its banner when that is not empty. */
  lemma ErrorShowsDetail(s: App.State, status: nat, detail: string)
    requires Waiting(s) && detail != ""
    ensures var next := Deliver(s, Payload.HttpError(status, detail));
            && App.Render(next).UploadScreen?
            && !next.upload.uploading && next.upload.error == detail
  {
  }

  /** The widget only ever posts a file whose name ends in ".csv", so the
      endpoint's 400 is unreachable from it. */
  lemma WidgetNeverGets400(
    u: Upload.State,
    user: map<string, Option<string>>,
    frame: Result<nat>,
    detect: Result<seq<Payload.Issue>>,
    repair: Result<string>,
    loads: string -> Analyze.Parsed)
    requires Upload.Valid(u) && u.file.Some?
    ensures var r := Analyze.AnalyzeCsv(u.file.value.name, user, frame, detect, repair, loads);
            r.HttpError? ==> r.status == 500
  {
  }
}

=== FILE: payload.dfy ===
/** The JSON shapes that travel between the analysis endpoint and the
    browser client. */
module Payload {
  import opened Wrappers

  /** One detected data-quality problem: a column, a free-text description
      and an occurrence count, as the rule-based layer reports it. */
  datatype Issue = Issue(column: string, issue: string, count: nat)

  /** One suggested correction as the language model returned it. `original`
      and `fix` hold the text Python's `str()` gives for the value under that
      key (so a JSON `null` holds "None"), and `None` when the key is absent;
      `others` holds the remaining keys, carried along unread. */
  datatype Suggestion = Suggestion(
    original: Option<string>,
    fix: Option<string>,
    others: map<string, string>)

  /** A 200 body of `POST /analyze`. A row-count rejection carries only an
      `error` key; a report carries the five keys of the success payload.
      `user` is `None` when the value sent is JSON `null`. */
  datatype Body =
    | RowLimitBody(error: string)
    | ReportBody(
        filename: string,
        user: Option<string>,
        totalRows: nat,
        issuesDetected: seq<Issue>,
        suggestions: seq<Suggestion>)

  /** What the endpoint answers: a 200 with a body, or an `HTTPException`
      with its status code and `detail` text. */
  datatype Response = Ok(body: Body) | HttpError(status: nat, detail: string)
}

=== FILE: result_table.dfy ===
/** The suggestions table (frontend/src/components/ResultTable.js): one row
    per suggested correction with a confidence badge, or two built-in sample
    rows when the data carries no suggestions. */
module ResultTable {
  import opened Wrappers

  /** One suggestion as the table reads it. `confidence` is `None` when the
      field holds no number (absent, `undefined`, `NaN`): every `>` against
      it is false. */
  datatype Item = Item(column: string, original: string, fix: string, confidence: Option<real>)

  datatype Tier = Low | Medium | High

  /** One table row (lines 41-52): the three text cells, the badge's tier,
      and whether the badge shows the check mark (otherwise a warning sign). */
  datatype Row = Row(column: string, original: string, fix: string, tier: Tier, check: bool)

  /** Lines 6-9: the sample rows shown when `suggestions` is missing. */
  const MockSuggestions: seq<Item> := [
    Item("Email", "user@@gmail.com", "user@gmail.com", Some(0.95)),
    Item("City", "N.Y.", "New York", Some(0.88))
  ]

  /** Lines 11-15: strictly above 0.9 is High, strictly above 0.7 is Medium,
      the rest (and a missing score) is Low. */
  function TierOf(score: Option<real>): (r: Tier)
    ensures r == High <==> score.Some? && score.value > 0.9
    ensures r == Medium <==> score.Some? && 0.7 < score.value <= 0.9
    ensures r == Low <==> score.None? || score.value <= 0.7
  {
    match score
    case None => Low
    case Some(v) => if v > 0.9 then High else if v > 0.7 then Medium else Low
  }

  function Rank(t: Tier): nat {
    match t
    case Low => 0
    case Medium => 1
    case High => 2
  }

  /** A higher score never gets a lower tier. */
  lemma TierMonotone(a: real, b: real)
    requires a <= b
    ensures Rank(TierOf(Some(a))) <= Rank(TierOf(Some(b)))
  {
  }

  /** The boundaries belong to the tier below. */
  lemma TierBoundaries()
    ensures TierOf(Some(0.9)) == Medium && TierOf(Some(0.7)) == Low
    ensures TierOf(Some(0.91)) == High && TierOf(Some(0.71)) == Medium
  {
  }

  /** Line 48: the check mark has its own threshold, 0.8. */
  predicate CheckIcon(score: Option<real>) {
    score.Some? && score.value > 0.8
  }

  /** How the two thresholds relate: High always has the check mark, Low
      never does, and Medium has it exactly above 0.8. */
  lemma IconAgreesWithTier(score: Option<real>)
    ensures TierOf(score) == High ==> CheckIcon(score)
    ensures TierOf(score) == Low ==> !CheckIcon(score)
    ensures TierOf(score) == Medium ==> (CheckIcon(score) <==> score.value > 0.8)
  {
  }

  /** A Medium score above 0.8 shows the check mark. */
  lemma MediumWithCheck()
    ensures TierOf(Some(0.85)) == Medium && CheckIcon(Some(0.85))
    ensures TierOf(Some(0.75)) == Medium && !CheckIcon(Some(0.75))
  {
  }

  function RowOf(item: Item): Row {
    Row(item.column, item.original, item.fix, TierOf(item.confidence), CheckIcon(item.confidence))
  }

  function RowsOf(items: seq<Item>): (r: seq<Row>)
    ensures |r| == |items|
    ensures forall k :: 0 <= k < |r| ==> r[k] == RowOf(items[k])
  {
    if items == [] then [] else [RowOf(items[0])] + RowsOf(items[1..])
  }

  /** Lines 6-9 and 38-53: the rows for `data.suggestions`, `None` when it is
      missing. A missing list falls back to the sample rows; a present one,
      even empty, gives one row per item in order, each showing the item's
      texts, the tier of its score, and the check mark exactly above 0.8. */
  function RowsShown(suggestions: Option<seq<Item>>): (r: seq<Row>)
    ensures var items := suggestions.GetOr(MockSuggestions);
            && |r| == |items|
            && forall k :: 0 <= k < |r| ==>
                 && r[k].column == items[k].column
                 && r[k].original == items[k].original
                 && r[k].fix == items[k].fix
                 && (r[k].tier == High <==> items[k].confidence.Some? && items[k].confidence.value > 0.9)
                 && (r[k].tier == Low <==> items[k].confidence.None? || items[k].confidence.value <= 0.7)
                 && (r[k].check <==> items[k].confidence.Some? && items[k].confidence.value > 0.8)
  {
    RowsOf(suggestions.GetOr(MockSuggestions))
  }

  /** An empty list is shown as an empty table, not as the samples. */
  lemma EmptyIsNotMissing()
    ensures RowsShown(Some([])) == []
    ensures |RowsShown(None)| == 2
  {
  }

  /** The samples show as one High and one Medium row, both checked. */
  lemma MockRows()
    ensures var r := RowsShown(None);
            && r[0].column == "Email" && r[0].tier == High && r[0].check
            && r[1].column == "City" && r[1].tier == Medium && r[1].check
  {
  }
}

=== FILE: sanitiser.dfy ===
/** The "indestructible JSON extractor" of `POST /analyze`: string surgery
    that turns the language model's raw reply into text `json.loads` is
    likely to accept (backend/main.py, lines 69-89). */
module Sanitiser {
  import opened Wrappers
  import opened Text

  const JsonFence: string := "```json"
  const Fence: string := "```"

  /** Lines 72-75, applied to already-stripped text: keeps the content of a
      fenced block, preferring a "```json" fence over a plain one. */
  function ExtractFenced(s: string): (r: string)
    ensures !Contains(s, Fence) ==> r == s
    ensures Contains(s, Fence) ==> !Contains(r, Fence)
    ensures Contains(s, Fence) ==> |r| > 0 ==> !IsSpace(r[0]) && !IsSpace(r[|r| - 1])
  {
    if Contains(s, JsonFence) then
      ContainsJsonFence(s);
      FenceFree(SplitHead(SplitSecond(s, JsonFence), Fence))
    else if Contains(s, Fence) then
      FenceFree(SplitHead(SplitSecond(s, Fence), Fence))
    else
      assert !Contains(s, Fence);
      s
  }

  /** Strips text that holds no fence; the stripped text holds none either. */
  function FenceFree(t: string): (r: string)
    requires !Contains(t, Fence)
    ensures r == Strip(t) && !Contains(r, Fence)
  {
    var r := Strip(t);
    AbsentFromPiece(t, r, |t| - |StripLeft(t)|, Fence);
    r
  }

  lemma ContainsJsonFence(s: string)
    requires Contains(s, JsonFence)
    ensures Contains(s, Fence)
  {
    JsonFenceIsFence(s, Find(s, JsonFence).value);
  }

  /** Every "```json" begins with "```". */
  lemma JsonFenceIsFence(x: string, a: int)
    requires OccursAt(x, JsonFence, a)
    ensures OccursAt(x, Fence, a)
  {
    assert x[a..a + 3] == x[a..a + 7][..3];
  }

  /** A "```json" fence is the text after the first "```json" up to the
      first "```" after it, stripped — provided no run of four or more
      backticks runs into a later "json", which would let Python's
      `split('```json')` cut a closing "```" short. */
  lemma JsonFenceSegment(s: string)
    requires Contains(s, JsonFence)
    ensures var x := s[Find(s, JsonFence).value + |JsonFence|..];
            !Contains(x, "````json") ==> ExtractFenced(s) == Strip(SplitHead(x, Fence))
  {
    var x := s[Find(s, JsonFence).value + |JsonFence|..];
    if !Contains(x, "````json") {
      var y := SplitHead(x, JsonFence);
      assert SplitSecond(s, JsonFence) == y;
      var t := SplitHead(x, Fence);
      // t is a prefix of y
      if |y| < |x| {
        JsonFenceIsFence(x, |y|);
      }
      assert |t| <= |y|;
      assert t <= y;
      forall k | 0 <= k < |t| ensures !OccursAt(y, Fence, k) {
        if OccursAt(y, Fence, k) {
          OccursInPrefix(y, x, Fence, k);
        }
      }
      if |t| < |y| {
        assert OccursAt(x, Fence, |t|);
        if |t| + 3 > |y| {
          NoCutFence(x, |t|, |y|);
        }
        assert y[|t|..|t| + 3] == x[|t|..|t| + 3];
      }
      SplitHeadUnique(y, Fence, t);
    }
  }

  /** A "```" starting one or two places before a "```json" makes "````json". */
  lemma NoCutFence(x: string, b: int, a: int)
    requires OccursAt(x, Fence, b) && OccursAt(x, JsonFence, a) && b < a < b + 3
    ensures OccursAt(x, "````json", a - 1)
  {
    var w := x[a - 1..a + 7];
    assert w[0] == x[b..b + 3][a - 1 - b] == '`';
    assert w[1..] == x[a..a + 7] == JsonFence;
    assert w == [w[0]] + w[1..];
  }

  /** The shape that defeats the plain reading: the two trailing backticks
      stay in the extracted text. */
  lemma JsonFenceCutShort()
    ensures ExtractFenced("```json[1]`````json") == "[1]``"
  {
    CutShortSegment();
    JsonBranch("```json[1]`````json");
    CutShortTail();
  }

  /** With a "```json" in the text, the extraction takes the "```json"
      branch. */
  lemma JsonBranch(s: string)
    requires Contains(s, JsonFence)
    ensures ExtractFenced(s) == Strip(SplitHead(SplitSecond(s, JsonFence), Fence))
  {
  }

  /** "[1]``" holds no "```" and no whitespace at its ends. */
  lemma CutShortTail()
    ensures Strip(SplitHead("[1]``", Fence)) == "[1]``"
  {
    var y := "[1]``";
    forall k | 0 <= k <= 2 ensures !OccursAt(y, Fence, k) {
      MismatchAt(y, Fence, k);
    }
    SplitHeadUnique(y, Fence, y);
    assert !IsSpace(y[0]) && !IsSpace(y[|y| - 1]);
  }

  /** In that reply, the text after the first "```json" up to the next
      "```json" is "[1]``". */
  lemma CutShortSegment()
    ensures Contains("```json[1]`````json", JsonFence)
    ensures SplitSecond("```json[1]`````json", JsonFence) == "[1]``"
  {
    var s := "```json[1]`````json";
    assert OccursAt(s, JsonFence, 0);
    assert Find(s, JsonFence) == Some(0);
    assert s[12..19] == JsonFence;
    forall k | 7 <= k < 12 ensures !OccursAt(s, JsonFence, k) {
      assert k + 6 < |s| && s[k + 6] != 'n';
      if k + 7 <= |s| {
        assert s[k..k + 7][6] == s[k + 6];
      }
    }
    assert "[1]``" <= s[7..];
    SplitSecondUnique(s, JsonFence, "[1]``");
  }

  /** A plain fence is the text between the first "```" and the next one
      after it, stripped. */
  lemma PlainFenceSegment(s: string)
    requires !Contains(s, JsonFence) && Contains(s, Fence)
    ensures ExtractFenced(s) == Strip(SplitSecond(s, Fence))
  {
    var z := SplitSecond(s, Fence);
    assert !Contains(z, Fence);
    SplitHeadUnique(z, Fence, z);
  }

  /** Line 78-79: drops everything before the first `[`; text without one is
      left as it is. */
  function FromFirstBracket(s: string): (r: string)
    ensures '[' !in s ==> r == s
    ensures '[' in s ==> 0 < |r| <= |s| && r[0] == '[' && r == s[|s| - |r|..] && '[' !in s[..|s| - |r|]
  {
    if Contains(s, "[") then
      var i := Find(s, "[").value;
      OccursAtChar(s, '[', i);
      assert '[' !in s[..i] by {
        forall k | 0 <= k < i ensures s[k] != '[' {
          OccursAtChar(s, '[', k);
        }
      }
      s[i..]
    else
      assert '[' !in s by {
        forall k | 0 <= k < |s| ensures s[k] != '[' {
          OccursAtChar(s, '[', k);
        }
      }
      s
  }

  /** Lines 83-89, the auto-closer: when `[` outnumbers `]`, the text is cut
      after its last `}` and closed with a newline and `]`; with no `}` at
      all it becomes the empty list. */
  function AutoClose(s: string): (r: string)
    ensures Count(s, '[') <= Count(s, ']') ==> r == s
    ensures Count(s, '[') > Count(s, ']') && '}' !in s ==> r == "[]"
    ensures Count(s, '[') > Count(s, ']') && '}' in s ==>
              var n := |r| - 2;
              1 <= n <= |s| && r == s[..n] + "\n]" && s[n - 1] == '}' && '}' !in s[n..]
  {
    if Count(s, '[') > Count(s, ']') then
      match RFind(s, '}')
      case Some(k) => s[..k + 1] + "\n]"
      case None => "[]"
    else
      s
  }

  /** A second pass of the auto-closer changes nothing. */
  lemma AutoCloseIdempotent(s: string)
    ensures AutoClose(AutoClose(s)) == AutoClose(s)
  {
    var r := AutoClose(s);
    if Count(s, '[') > Count(s, ']') {
      if '}' in s {
        var n := |r| - 2;
        assert r == s[..n] + "\n]" && s[..n][n - 1] == '}';
        ClosedIsFixed(s[..n]);
      } else {
        assert multiset(r) == multiset{'[', ']'};
      }
    }
  }

  /** Text already closed after a `}` is left alone by the auto-closer. */
  lemma ClosedIsFixed(p: string)
    requires |p| > 0 && p[|p| - 1] == '}'
    ensures AutoClose(p + "\n]") == p + "\n]"
  {
    var r := p + "\n]";
    if Count(r, '[') > Count(r, ']') {
      assert r[|p| - 1] == '}' && r[|p|] == '\n' && r[|p| + 1] == ']';
      var k := RFind(r, '}').value;
      assert k == |p| - 1;
      assert r[..k + 1] == p;
    }
  }

  /** Closing fence-free text with a newline and `]` adds no fence. */
  lemma ClosingAddsNoFence(p: string)
    requires !Contains(p, Fence)
    ensures !Contains(p + "\n]", Fence)
  {
    var r := p + "\n]";
    forall k | 0 <= k <= |r| - |Fence| ensures !OccursAt(r, Fence, k) {
      if k + 3 <= |p| {
        assert r[k..k + 3] == p[k..k + 3];
        assert !OccursAt(p, Fence, k);
      } else {
        assert r[k..k + 3][|p| - k] == r[|p|] == '\n';
      }
    }
  }

  /** The auto-closer keeps a leading `[` in place. */
  lemma AutoCloseKeepsStart(s: string)
    requires |s| > 0 && s[0] == '['
    ensures |AutoClose(s)| > 0 && AutoClose(s)[0] == '['
  {
    var r := AutoClose(s);
    if Count(s, '[') > Count(s, ']') && '}' in s {
      assert r[0] == s[..|r| - 2][0];
    }
  }

  /** Text as `json.loads` receives it from the sanitiser: no fence left,
      and no whitespace at either end. */
  predicate Clean(s: string) {
    !Contains(s, Fence) && (|s| > 0 ==> !IsSpace(s[0]) && !IsSpace(s[|s| - 1]))
  }

  /** Lines 77-89: start at the first `[` and auto-close. Text without a
      `[` passes unchanged; text with one comes out starting with `[`; and
      stripped, fence-free text stays so. */
  function Bracketed(mid: string): (r: string)
    ensures '[' in mid ==> |r| > 0 && r[0] == '['
    ensures '[' !in mid ==> r == mid
    ensures Clean(mid) ==> Clean(r)
  {
    var b := FromFirstBracket(mid);
    if '[' in mid then
      assert Clean(mid) ==> Clean(AutoClose(b)) by {
        if Clean(mid) {
          BracketTidy(mid);
        }
      }
      AutoCloseKeepsStart(b);
      AutoClose(b)
    else
      assert Count(b, '[') == 0;
      AutoClose(b)
  }

  /** Lines 69-89 as a whole: strip, extract the fenced block, start at the
      first `[`, auto-close. */
  function Sanitise(raw: string): (r: string)
    ensures var mid := ExtractFenced(Strip(raw));
            && ('[' in mid ==> |r| > 0 && r[0] == '[')
            && ('[' !in mid ==> r == mid)
    // what reaches `json.loads` holds no fence and is already stripped
    ensures Clean(r)
  {
    ExtractedTidy(raw);
    Bracketed(ExtractFenced(Strip(raw)))
  }

  /** The fence extraction of stripped text is stripped and fence-free. */
  lemma ExtractedTidy(raw: string)
    ensures Clean(ExtractFenced(Strip(raw)))
  {
    var s := Strip(raw);
    if !Contains(s, Fence) {
      assert ExtractFenced(s) == s;
    }
  }

  /** Starting at the first `[` and auto-closing keeps stripped, fence-free
      text so, and puts a `[` first. */
  lemma BracketTidy(mid: string)
    requires '[' in mid && !Contains(mid, Fence) && !IsSpace(mid[|mid| - 1])
    ensures var r := AutoClose(FromFirstBracket(mid));
            && |r| > 0 && r[0] == '[' && !IsSpace(r[|r| - 1]) && !Contains(r, Fence)
  {
    var b := FromFirstBracket(mid);
    assert mid[|mid| - |b|..|mid|] == b;
    AbsentFromPiece(mid, b, |mid| - |b|, Fence);
    AutoCloseTidy(b);
  }

  /** The auto-closer turns stripped, fence-free text that starts with `[`
      into text of the same kind. */
  lemma AutoCloseTidy(b: string)
    requires |b| > 0 && b[0] == '[' && !IsSpace(b[|b| - 1]) && !Contains(b, Fence)
    ensures var r := AutoClose(b);
            && |r| > 0 && r[0] == '[' && !IsSpace(r[|r| - 1]) && !Contains(r, Fence)
  {
    AutoCloseKeepsStart(b);
    var r := AutoClose(b);
    if Count(b, '[') > Count(b, ']') {
      if '}' in b {
        var n := |r| - 2;
        AbsentFromPiece(b, b[..n], 0, Fence);
        ClosingAddsNoFence(b[..n]);
      } else {
        assert r == "[]";
      }
    }
  }

  /** A second pass of the sanitiser changes nothing: its output is
      stripped, holds no fence, starts at its first `[`, and is closed. */
  lemma SanitiseIdempotent(raw: string)
    ensures Sanitise(Sanitise(raw)) == Sanitise(raw)
  {
    var r := Sanitise(raw);
    var mid := ExtractFenced(Strip(raw));
    assert Strip(r) == r && ExtractFenced(r) == r;
    if '[' in mid {
      assert FromFirstBracket(r) == r;
      AutoCloseIdempotent(FromFirstBracket(mid));
    }
  }
}

=== FILE: text.dfy ===
/** The string primitives the backend (Python) and the frontend (JavaScript)
    use, each stated by what it returns rather than how it searches. */
module Text {
  import opened Wrappers

  /** Python's `str.isspace()` for one character: the ASCII controls from
      tab to carriage return, the four separator controls and the space, and
      beyond ASCII the Unicode space separators and line breaks. */
  predicate IsSpace(c: char) {
    if c < '\U{80}' then
      ('\t' <= c <= '\r') || ('\U{1C}' <= c <= ' ')
    else
      || c == '\U{85}' || c == '\U{A0}' || c == '\U{1680}'
      || ('\U{2000}' <= c <= '\U{200A}')
      || c == '\U{2028}' || c == '\U{2029}' || c == '\U{202F}'
      || c == '\U{205F}' || c == '\U{3000}'
  }

  predicate AllSpace(s: string) {
    forall k :: 0 <= k < |s| ==> IsSpace(s[k])
  }

  /** Removes leading whitespace: the result is a suffix of `s`, and what was
      removed is whitespace only. */
  function StripLeft(s: string): (r: string)
    ensures |r| <= |s| && r == s[|s| - |r|..]
    ensures forall k :: 0 <= k < |s| - |r| ==> IsSpace(s[k])
    ensures |r| > 0 ==> !IsSpace(r[0])
  {
    if |s| > 0 && IsSpace(s[0]) then StripLeft(s[1..]) else s
  }

  /** Removes trailing whitespace: the result is a prefix of `s`, and what was
      removed is whitespace only. */
  function StripRight(s: string): (r: string)
    ensures r <= s
    ensures forall k :: |r| <= k < |s| ==> IsSpace(s[k])
    ensures |r| > 0 ==> !IsSpace(r[|r| - 1])
  {
    if |s| > 0 && IsSpace(s[|s| - 1]) then StripRight(s[..|s| - 1]) else s
  }

  /** Python's `str.strip()` with no argument. */
  function Strip(s: string): (r: string)
    ensures |r| > 0 ==> !IsSpace(r[0]) && !IsSpace(r[|r| - 1])
    ensures r == [] <==> AllSpace(s)
    ensures (|s| == 0 || (!IsSpace(s[0]) && !IsSpace(s[|s| - 1]))) ==> r == s
    ensures OccursAt(s, r, |s| - |StripLeft(s)|)
  {
    var l := StripLeft(s);
    var r := StripRight(l);
    PrefixOfSuffixOccurs(s, l, r);
    assert |r| > 0 ==> r[0] == l[0];
    r
  }

  /** `Strip` keeps exactly one piece of `s`: it starts where the leading
      whitespace ends, and every character before or after it is
      whitespace. With the non-space ends `Strip` promises, this pins the
      result down. */
  lemma StripDropsOnlySpace(s: string)
    ensures var i := |s| - |StripLeft(s)|;
            && i + |Strip(s)| <= |s|
            && (forall k :: 0 <= k < i ==> IsSpace(s[k]))
            && (forall k :: i + |Strip(s)| <= k < |s| ==> IsSpace(s[k]))
  {
    var l := StripLeft(s);
    var r := StripRight(l);
    assert Strip(s) == r;
    TrailIsSpace(s, l, r);
  }

  /** Whitespace after a prefix of a suffix is whitespace in the whole. */
  lemma TrailIsSpace(s: string, l: string, r: string)
    requires |l| <= |s| && l == s[|s| - |l|..] && r <= l
    requires forall k :: |r| <= k < |l| ==> IsSpace(l[k])
    ensures forall k :: |s| - |l| + |r| <= k < |s| ==> IsSpace(s[k])
  {
    forall k | |s| - |l| + |r| <= k < |s| ensures IsSpace(s[k]) {
      assert s[k] == l[k - (|s| - |l|)];
    }
  }

  /** A prefix of a suffix is a contiguous piece of the whole. */
  lemma PrefixOfSuffixOccurs(s: string, l: string, r: string)
    requires |l| <= |s| && l == s[|s| - |l|..] && r <= l
    ensures OccursAt(s, r, |s| - |l|)
  {
    var i := |s| - |l|;
    forall j | 0 <= j < |r| ensures s[i + j] == r[j] {
      assert r[j] == l[j];
    }
    assert s[i..i + |r|] == r;
  }

  /** Stripping twice is stripping once. */
  lemma StripIdempotent(s: string)
    ensures Strip(Strip(s)) == Strip(s)
  {
  }

  /** `p` occurs in `s` starting at index `i`. */
  predicate OccursAt(s: string, p: string, i: int) {
    0 <= i && i + |p| <= |s| && s[i..i + |p|] == p
  }

  /** Python's `p in s`. */
  predicate Contains(s: string, p: string) {
    exists i :: 0 <= i <= |s| - |p| && OccursAt(s, p, i)
  }

  /** The first occurrence of `p` in `s` at or after `from`. */
  function FindFrom(s: string, p: string, from: nat): (r: Option<nat>)
    decreases |s| - from
    ensures r.Some? ==> from <= r.value && OccursAt(s, p, r.value)
    ensures forall k :: from <= k && (r.None? || k < r.value) ==> !OccursAt(s, p, k)
  {
    if from + |p| > |s| then None
    else if s[from..from + |p|] == p then Some(from)
    else FindFrom(s, p, from + 1)
  }

  /** Python's `s.find(p)` and JavaScript's `s.indexOf(p)`, with `None` for -1. */
  function Find(s: string, p: string): (r: Option<nat>)
    ensures r.Some? <==> Contains(s, p)
    ensures r.Some? ==> OccursAt(s, p, r.value)
    ensures r.Some? ==> forall k :: 0 <= k < r.value ==> !OccursAt(s, p, k)
  {
    FindFrom(s, p, 0)
  }

  /** A one-character pattern occurs exactly where that character stands. */
  lemma OccursAtChar(s: string, c: char, i: int)
    ensures OccursAt(s, [c], i) <==> 0 <= i < |s| && s[i] == c
  {
    if 0 <= i < |s| {
      assert s[i..i + 1] == [s[i]];
    }
  }

  /** Python's and JavaScript's `s.endswith(suffix)` / `s.endsWith(suffix)`. */
  predicate EndsWith(s: string, suffix: string) {
    |suffix| <= |s| && s[|s| - |suffix|..] == suffix
  }

  /** Python's `s.count(c)` for a one-character pattern. */
  function Count(s: string, c: char): nat {
    multiset(s)[c]
  }

  /** Python's `s.rfind(c)` for a one-character pattern, with `None` for -1. */
  function RFind(s: string, c: char): (r: Option<nat>)
    ensures r.Some? ==> r.value < |s| && s[r.value] == c
    ensures r.Some? ==> forall k :: r.value < k < |s| ==> s[k] != c
    ensures r.None? <==> c !in s
  {
    if |s| == 0 then None
    else if s[|s| - 1] == c then Some(|s| - 1)
    else
      var r := RFind(s[..|s| - 1], c);
      assert r.None? ==> c !in s by {
        if r.None? {
          assert s == s[..|s| - 1] + [s[|s| - 1]];
        }
      }
      r
  }

  /** Python's `s.split(sep)[0]`: the text before the first occurrence of
      `sep`, or all of `s` when there is none. */
  function SplitHead(s: string, sep: string): (r: string)
    requires sep != []
    ensures r <= s
    ensures !Contains(r, sep)
    ensures forall k :: 0 <= k < |r| ==> !OccursAt(s, sep, k)
    ensures |r| < |s| ==> OccursAt(s, sep, |r|)
  {
    var r := match Find(s, sep) case Some(i) => s[..i] case None => s;
    assert !Contains(r, sep) by {
      forall k | 0 <= k <= |r| - |sep| ensures !OccursAt(r, sep, k) {
        if OccursAt(r, sep, k) {
          OccursInPrefix(r, s, sep, k);
        }
      }
    }
    r
  }

  /** The three facts `SplitHead` promises determine its result. */
  lemma SplitHeadUnique(s: string, sep: string, t: string)
    requires sep != [] && t <= s
    requires forall k :: 0 <= k < |t| ==> !OccursAt(s, sep, k)
    requires |t| < |s| ==> OccursAt(s, sep, |t|)
    ensures SplitHead(s, sep) == t
  {
  }

  /** A pattern does not occur where its first character does not. */
  lemma MismatchAt(s: string, p: string, k: int)
    requires 0 <= k < |s| && |p| > 0 && s[k] != p[0]
    ensures !OccursAt(s, p, k)
  {
    if k + |p| <= |s| {
      assert s[k..k + |p|][0] == s[k];
    }
  }

  /** An occurrence inside a prefix is an occurrence in the whole. */
  lemma OccursInPrefix(r: string, s: string, p: string, k: int)
    requires r <= s && OccursAt(r, p, k)
    ensures OccursAt(s, p, k)
  {
    assert s[k..k + |p|] == r[k..k + |p|];
  }

  /** An occurrence inside an occurrence is an occurrence in the whole. */
  lemma OccursWithin(s: string, t: string, i: int, p: string, k: int)
    requires OccursAt(s, t, i) && OccursAt(t, p, k)
    ensures OccursAt(s, p, i + k)
  {
    assert forall j :: 0 <= j < |t| ==> s[i + j] == t[j];
    assert s[i + k..i + k + |p|] == t[k..k + |p|];
  }

  /** Occurrences in a suffix are occurrences in the whole, shifted. */
  lemma OccursInSuffix(s: string, a: int, p: string, k: int)
    requires 0 <= a <= |s| && 0 <= k
    ensures OccursAt(s[a..], p, k) <==> OccursAt(s, p, a + k)
  {
    if a + k + |p| <= |s| {
      assert s[a..][k..k + |p|] == s[a + k..a + k + |p|];
    }
  }

  /** A piece of a text in which `p` does not occur holds no `p` either. */
  lemma AbsentFromPiece(s: string, t: string, i: int, p: string)
    requires OccursAt(s, t, i) && !Contains(s, p)
    ensures !Contains(t, p)
  {
    forall k | 0 <= k <= |t| - |p| ensures !OccursAt(t, p, k) {
      if OccursAt(t, p, k) {
        OccursWithin(s, t, i, p, k);
      }
    }
  }

  /** Python's `s.split(sep)[1]`, which the source indexes only after testing
      `sep in s` (otherwise the list has one element and indexing raises):
      the text after the first occurrence up to the next occurrence found
      after it, or up to the end. */
  function SplitSecond(s: string, sep: string): (r: string)
    requires sep != [] && Contains(s, sep)
    ensures Find(s, sep).value + |sep| + |r| <= |s|
    ensures r <= s[Find(s, sep).value + |sep|..]
    ensures !Contains(r, sep)
    ensures var a := Find(s, sep).value + |sep|;
            forall k :: a <= k < a + |r| ==> !OccursAt(s, sep, k)
    ensures var j := Find(s, sep).value + |sep| + |r|;
            j == |s| || OccursAt(s, sep, j)
  {
    var a := Find(s, sep).value + |sep|;
    HeadOfSuffix(s, a, sep);
    SplitHead(s[a..], sep)
  }

  /** Where `SplitHead` of a suffix ends, in terms of the whole text. */
  lemma HeadOfSuffix(s: string, a: int, sep: string)
    requires 0 <= a <= |s| && sep != []
    ensures var r := SplitHead(s[a..], sep);
            && (forall k :: a <= k < a + |r| ==> !OccursAt(s, sep, k))
            && (a + |r| == |s| || OccursAt(s, sep, a + |r|))
  {
    var r := SplitHead(s[a..], sep);
    forall k | a <= k < a + |r| ensures !OccursAt(s, sep, k) {
      OccursInSuffix(s, a, sep, k - a);
    }
    OccursInSuffix(s, a, sep, |r|);
  }

  /** The text after the first separator, up to where the next separator
      starts (or the end), is the only text `SplitSecond` can return. */
  lemma SplitSecondUnique(s: string, sep: string, t: string)
    requires sep != [] && Contains(s, sep)
    requires var a := Find(s, sep).value + |sep|;
             && a + |t| <= |s| && t <= s[a..]
             && (forall k :: a <= k < a + |t| ==> !OccursAt(s, sep, k))
             && (a + |t| == |s| || OccursAt(s, sep, a + |t|))
    ensures SplitSecond(s, sep) == t
  {
    var a := Find(s, sep).value + |sep|;
    var x := s[a..];
    forall k | 0 <= k < |t| ensures !OccursAt(x, sep, k) {
      OccursInSuffix(s, a, sep, k);
    }
    if |t| < |x| {
      assert x[|t|..|t| + |sep|] == s[a + |t|..a + |t| + |sep|];
    }
    SplitHeadUnique(x, sep, t);
  }

  /** JavaScript's `s.replace(pat, '')` with a string pattern: deletes the
      first occurrence of `pat` only; without one, `s` is returned as is. */
  function RemoveFirst(s: string, pat: string): (r: string)
    ensures !Contains(s, pat) ==> r == s
    ensures Contains(s, pat) ==> |r| == |s| - |pat|
    ensures Contains(s, pat) ==>
              var i := Find(s, pat).value;
              i <= |r| && r[..i] + pat + r[i..] == s
  {
    match Find(s, pat)
    case Some(i) =>
      var r := s[..i] + s[i + |pat|..];
      assert r[..i] + pat + r[i..] == s by {
        assert r[..i] == s[..i];
        assert r[i..] == s[i + |pat|..];
        assert s[i..i + |pat|] == pat;
        assert s == s[..i] + s[i..i + |pat|] + s[i + |pat|..];
      }
      r
    case None => s
  }

  function DigitChar(d: nat): char
    requires d < 10
  {
    "0123456789"[d]
  }

  function DigitValue(c: char): nat {
    if '0' <= c <= '9' then (c as int - '0' as int) as nat else 0
  }

  /** Python's `str(n)` (and f-string formatting) of a non-negative integer. */
  function Decimal(n: nat): (r: string)
    ensures |r| > 0
    ensures forall k :: 0 <= k < |r| ==> '0' <= r[k] <= '9'
    ensures r[0] == '0' ==> n == 0
  {
    if n < 10 then [DigitChar(n)] else Decimal(n / 10) + [DigitChar(n % 10)]
  }

  /** Reads a string of decimal digits back as a number. */
  function DecimalValue(s: string): nat {
    if |s| == 0 then 0 else 10 * DecimalValue(s[..|s| - 1]) + DigitValue(s[|s| - 1])
  }

  /** The decimal text of `n` reads back as `n`. */
  lemma {:induction false} DecimalRoundTrip(n: nat)
    ensures DecimalValue(Decimal(n)) == n
  {
    var r := Decimal(n);
    if n < 10 {
      assert r[..|r| - 1] == [];
    } else {
      DecimalRoundTrip(n / 10);
      assert r[..|r| - 1] == Decimal(n / 10);
    }
  }
}

=== FILE: upload.dfy ===
/** The upload widget (frontend/src/components/FileUpload.js): the chosen
    file, the in-flight flag and the error banner, driven by file choices,
    clicks on the submit button, and the settling of the request. */
module Upload {
  import opened Wrappers
  import opened Text
  import Payload

  /** A file the browser handed over; its contents are never read here. */
  datatype PickedFile = PickedFile(name: string, size: nat)

  /** Lines 7-9: the widget's three pieces of state. */
  datatype State = State(file: Option<PickedFile>, uploading: bool, error: string)

  const Initial: State := State(None, false, "")
  const InvalidSelection: string := "Please upload a valid CSV file."
  const ConnectionFailed: string := "Connection to AI Backend failed"

  /** How the request of lines 30-41 ended: resolved with the response
      body, or rejected, with the `detail` of the error response's body when
      there is a response and it has one. A failed token fetch or a network
      error rejects with no `detail`. */
  datatype Outcome = Succeeded(body: Payload.Body) | Failed(detail: Option<string>)

  datatype Event =
    | Choose(selection: Option<PickedFile>)  // the file input's change event
    | Click                                  // a click on the submit button
    | Settle(outcome: Outcome)               // the request in flight ended

  /** The case-sensitive suffix test of line 13. */
  predicate IsCsvName(name: string) {
    EndsWith(name, ".csv")
  }

  /** Lines 11-20: a choice is accepted exactly when there is a file and its
      name ends in ".csv"; acceptance stores it and clears the banner, and
      anything else (a wrong name, a cancelled dialog) drops the stored file
      and shows the validation message. */
  function HandleFileChange(s: State, selection: Option<PickedFile>): (r: State)
    ensures r.uploading == s.uploading
    ensures r.file.Some? <==> selection.Some? && IsCsvName(selection.value.name)
    ensures r.file.Some? ==> r.file == selection && r.error == ""
    ensures r.file.None? ==> r.error == InvalidSelection
  {
    match selection
    case Some(f) =>
      if IsCsvName(f.name) then s.(file := Some(f), error := "")
      else s.(file := None, error := InvalidSelection)
    case None => s.(file := None, error := InvalidSelection)
  }

  /** Line 87: the button is enabled exactly when nothing is in flight and a
      file is stored; it is the only guard against a second request. */
  predicate SubmitEnabled(s: State) {
    !s.uploading && s.file.Some?
  }

  /** Lines 22-26, the part of `uploadFile` before the request is sent:
      without a file nothing happens; with one the widget goes in flight
      with a clear banner, keeping the file. */
  function StartUpload(s: State): (r: State)
    ensures s.file.None? ==> r == s
    ensures s.file.Some? ==> r.uploading && r.error == "" && r.file == s.file
  {
    if s.file.None? then s else s.(uploading := true, error := "")
  }

  /** Line 45: the banner text after a failure — the server's `detail` when
      it is a non-empty string, the generic text otherwise. */
  function FailureMessage(detail: Option<string>): (r: string)
    ensures r != ""
    ensures detail.Some? && detail.value != "" ==> r == detail.value
    ensures detail.None? || detail.value == "" ==> r == ConnectionFailed
  {
    match detail
    case Some(d) => if d != "" then d else ConnectionFailed
    case None => ConnectionFailed
  }

  /** Lines 43-48, once the request settled: the body goes to the parent
      untouched on success, the banner explains a failure, the stored file
      stays for a retry, and the widget always leaves the in-flight state. */
  function FinishUpload(s: State, outcome: Outcome): (r: (State, Option<Payload.Body>))
    ensures !r.0.uploading && r.0.file == s.file
    ensures outcome.Succeeded? ==> r.1 == Some(outcome.body) && r.0.error == s.error
    ensures outcome.Failed? ==> r.1 == None && r.0.error == FailureMessage(outcome.detail)
  {
    match outcome
    case Succeeded(body) => (s.(uploading := false), Some(body))
    case Failed(detail) => (s.(uploading := false, error := FailureMessage(detail)), None)
  }

  /** The widget's reaction to one event, and the body it hands to the
      parent, if any. A click on the disabled button does nothing, and only
      a request in flight can settle. */
  function Step(s: State, e: Event): (r: (State, Option<Payload.Body>))
    ensures e.Click? && (s.uploading || s.file.None?) ==> r == (s, None)
    ensures e.Click? && SubmitEnabled(s) ==> r.0.uploading && r.0.error == "" && r.0.file == s.file
    ensures r.1.Some? ==> s.uploading && e.Settle? && e.outcome == Succeeded(r.1.value)
    ensures e.Choose? ==> r == (HandleFileChange(s, e.selection), None)
    ensures e.Settle? && s.uploading ==> r == FinishUpload(s, e.outcome)
    ensures e.Settle? && !s.uploading ==> r == (s, None)
  {
    match e
    case Choose(selection) => (HandleFileChange(s, selection), None)
    case Click => if SubmitEnabled(s) then (StartUpload(s), None) else (s, None)
    case Settle(outcome) => if s.uploading then FinishUpload(s, outcome) else (s, None)
  }

  /** What axios makes of the endpoint's answer: a 200 resolves with the body
      as it is, any other status rejects with the body's `detail`. */
  function Transport(response: Payload.Response): (r: Outcome)
    ensures response.Ok? <==> r.Succeeded?
    ensures response.Ok? ==> r.body == response.body
    ensures response.HttpError? ==> r.detail == Some(response.detail)
  {
    match response
    case Ok(body) => Succeeded(body)
    case HttpError(_, detail) => Failed(Some(detail))
  }

  /** A stored file always has a ".csv" name. */
  predicate Valid(s: State) {
    s.file.Some? ==> IsCsvName(s.file.value.name)
  }

  /** The widget after a sequence of events, with the bodies it handed to the
      parent, in order. */
  function Run(s: State, events: seq<Event>): (r: (State, seq<Payload.Body>))
    decreases |events|
  {
    if events == [] then (s, [])
    else
      var (next, out) := Step(s, events[0]);
      var (last, rest) := Run(next, events[1..]);
      (last, (if out.Some? then [out.value] else []) + rest)
  }

  /** Whatever happens, a stored file has a ".csv" name. */
  lemma {:induction false} RunKeepsValid(s: State, events: seq<Event>)
    requires Valid(s)
    ensures Valid(Run(s, events).0)
    decreases |events|
  {
    if events != [] {
      RunKeepsValid(Step(s, events[0]).0, events[1..]);
    }
  }

  /** The requests sent along a run: the clicks the button lets through. */
  function Requests(s: State, events: seq<Event>): nat
    decreases |events|
  {
    if events == [] then 0
    else (if events[0].Click? && SubmitEnabled(s) then 1 else 0) + Requests(Step(s, events[0]).0, events[1..])
  }

  /** The requests that settled along a run, successes and failures alike. */
  function Answers(s: State, events: seq<Event>): nat
    decreases |events|
  {
    if events == [] then 0
    else (if events[0].Settle? && s.uploading then 1 else 0) + Answers(Step(s, events[0]).0, events[1..])
  }

  function InFlight(s: State): nat {
    if s.uploading then 1 else 0
  }

  /** One request at a time (line 87): every request sent is answered or
      still in flight, with never more than one in flight, and every body
      handed to the parent is one of those answers. The balance holds only
      because a click while in flight is ignored: a second request would
      leave two owed with one in-flight flag. */
  lemma {:induction false} OneBodyPerRequest(s: State, events: seq<Event>)
    ensures Answers(s, events) + InFlight(Run(s, events).0) == Requests(s, events) + InFlight(s)
    ensures |Run(s, events).1| <= Answers(s, events)
    decreases |events|
  {
    if events != [] {
      OneBodyPerRequest(Step(s, events[0]).0, events[1..]);
    }
  }
}

=== FILE: wrappers.dfy ===
/** The optional value and the may-raise outcome shared by every module of
    the model. */
module Wrappers {

  /** A value that may be absent: JavaScript's `null`/`undefined`, Python's
      missing dictionary key, or "no occurrence" for a search. */
  datatype Option<+T> = None | Some(value: T) {

    /** The wrapped value, or `default` when absent. */
    function GetOr(default: T): T {
      match this
      case Some(v) => v
      case None => default
    }
  }

  /** The outcome of a step that may raise: `Failure` carries the exception's message. */
  datatype Result<+R> = Success(value: R) | Failure(message: string)
}
